=== FILE: README.md ===
# Skipper Kubernetes data client and block filter, modelled in Dafny

This project models two separable parts of the Skipper reverse proxy.

**The Kubernetes data client** (`dataclients/kubernetes/kube.go`) keeps Skipper's
routing table in step with a Kubernetes cluster. Each poll fetches the cluster
state and converts ingresses and route groups into routes. It then appends the
synthetic health-check and HTTPS-redirect routes. `LoadAll` publishes the whole
list. `LoadUpdate` publishes only the difference from the table published last:
the routes that are new or whose printed form changed, and the identifiers that
disappeared. The model also covers the configuration around this cycle:

- API-server URL resolution;
- path-mode printing and parsing;
- the defaults `New` applies;
- the shape of the health-check, redirect and "no endpoints" routes;
- `compareStringList`.

**The block filter** (`filters/block/block.go`) wraps a request body in a
reader that refuses any read whose buffer contains one of the configured byte
strings.

Modules:

- `wrappers.dfy` (`Wrappers`) holds `Option` and `Result`, used for Go's
  `(value, error)` returns.
- `eskip.dfy` (`Eskip`) holds the route datatype and identifier helpers.
- `kube_config.dfy` (`KubeConfig`) covers `buildAPIURL`, `net.JoinHostPort`,
  `PathMode` and option defaulting.
- `kube_routes.dfy` (`KubeRoutes`) covers `mapRoutes`, `shuntRoute`,
  `healthcheckRoutes`, the redirect route and `compareStringList`.
- `kube_diff.dfy` (`KubeDiff`) holds the two diff loops of `LoadUpdate` and
  what a correct diff means.
- `kube_client.dfy` (`KubeClient`) covers `New`, `loadAndConvert`, `LoadAll`,
  `LoadUpdate` and `Close`.
- `block.dfy` (`Block`) covers `CreateFilter`, `Request`, and
  `blockBuffer.Read`/`Close`.

Some parts of the program are modelled as parameters:

- **Route printer.** Routes are compared by their printed form, and the printer
  (`eskip.Route.String`) is a parameter `show`. Nothing is assumed about it: it
  may print two different routes the same way.
- **One poll.** A poll is a `Cluster` value. It holds:
  - the fetched state, of an opaque type, or an error;
  - the outcome of reading the default-filters directory;
  - the two converters, as functions.
- **Service environment.** The two service variables (host and port) are a
  `ServiceEnv` parameter.
- **Cluster client.** The failure of `newClusterClient` is a parameter of `New`.
- **Map order.** Go iterates maps in random order. The diff loops therefore
  pick each next key with `:|`, so every iteration order is covered.
- **Block reader.** The body under a block buffer is a sequence of chunks, each
  with the error that comes with it. A chunk larger than the caller's buffer is
  delivered in parts.

## Model

| member | source | states |
|---|---|---|
| `KubeConfig.BuildAPIURL` | dataclients/kubernetes/kube.go:279-293 | Outside the cluster: the configured URL, or the local default when it is empty. Inside: fails with the not-found error exactly when host or port is empty. Otherwise the result is `https://[host]:port` when the host holds a colon (IPv6) and `https://host:port` otherwise. When the port has no colon and the host is not a colon-free bracketed string, the part after `https://` splits back into the environment's host and port. |
| `KubeConfig.JoinHostPort` | dataclients/kubernetes/kube.go:292 | A host holding a colon is put in brackets before `:port`. Any other host is joined to the port as it is. |
| `KubeConfig.HttpsURLSplits` | dataclients/kubernetes/kube.go:292 | The in-cluster URL is `https://` followed by the joined host and port. For a colon-free port and an unambiguous host, that pair splits back into host and port. |
| `KubeConfig.UnbracketedIPv6DoesNotSplit` | dataclients/kubernetes/kube.go:292 | For any host that holds a colon but is not bracketed, and any colon-free port, `host:port` is rejected by the split, so only the bracketed form round-trips. |
| `KubeConfig.JoinSplitRoundTrip` | dataclients/kubernetes/kube.go:292 | `JoinHostPort` brackets IPv6 hosts. For a host that is not a colon-free bracketed string and a colon-free port, splitting its output at the last colon gives back the host and the port. A host such as `[abc]` is excluded: it joins to `[abc]:443` and splits back to `abc`. |
| `KubeConfig.InClusterURLExample` | dataclients/kubernetes/kube.go:287-292 | Host 10.0.0.1 with port 443 resolves to `https://10.0.0.1:443`. A missing port is the not-found error. |
| `KubeConfig.PathModeString` | dataclients/kubernetes/kube.go:297-306 | Mode 1 prints as `path-regexp` and mode 2 as `path-prefix`. Every other value, mode 0 included, prints as `kubernetes-ingress`. |
| `KubeConfig.ParsePathMode` | dataclients/kubernetes/kube.go:310-321 | `kubernetes-ingress` parses to mode 0, `path-regexp` to 1 and `path-prefix` to 2. Any other string fails with the invalid-path-mode error for that string. |
| `KubeConfig.PathModeRoundTrip` | dataclients/kubernetes/kube.go:297-321 | Parsing the printed form of a named mode gives the mode back. |
| `KubeConfig.ParsePathModeAccepts` | dataclients/kubernetes/kube.go:310-321 | The parser accepts exactly the printed forms of the named modes. Printing what it parsed gives the input string. |
| `KubeConfig.ClassOrDefault` | dataclients/kubernetes/kube.go:217-225 | An empty class becomes the default "skipper". A non-empty class is kept. |
| `KubeConfig.RedirectCode` | dataclients/kubernetes/kube.go:241-243 | The result is always positive. A non-positive code becomes 308 and a positive code is kept. |
| `KubeConfig.TrimDots` | dataclients/kubernetes/kube.go:249 | The result neither starts nor ends with a dot. It is an infix of the input, and only dots surround it there. |
| `KubeConfig.TrimDotsIdempotent` | dataclients/kubernetes/kube.go:249 | Trimming twice gives the same result as trimming once. |
| `KubeConfig.EastWestDomain` | dataclients/kubernetes/kube.go:245-251 | With east-west off, the domain is unchanged. With it on, an empty domain becomes the default and any other is trimmed of dots. With it on, the result has no leading or trailing dot. |
| `KubeConfig.DotsOnlyDomainBecomesEmpty` | dataclients/kubernetes/kube.go:245-251 | With east-west on, every non-empty domain made only of dots is trimmed to the empty string rather than replaced by the default. |
| `KubeConfig.DefaultsAreStable` | dataclients/kubernetes/kube.go:217-251 | Applying the class, redirect-code and east-west defaults a second time changes nothing. The one exception is a dotted domain that trims to empty: a second pass replaces it with the default. |
| `KubeConfig.HealthcheckCIDRs` | dataclients/kubernetes/kube.go:232-239 | The allow-list is the six internal ranges followed by the whitelisted extras, in order. |
| `KubeRoutes.MapRoutes` | dataclients/kubernetes/kube.go:323-330 | The keys are exactly the route identifiers, and each route is stored under its own identifier. The last route with a given identifier is the one kept. |
| `KubeRoutes.MapRoutesSuffixWins` | dataclients/kubernetes/kube.go:323-330 | A route appended after a list wins over every route of that list with the same identifier. |
| `KubeRoutes.ShuntRoute` | dataclients/kubernetes/kube.go:363-376 | Filters become exactly status(502) then inlineContent("no endpoints"), and the backend becomes an empty shunt. The identifier, predicates and load-balancer endpoints are unchanged. |
| `KubeRoutes.ShuntRouteIdempotent` | dataclients/kubernetes/kube.go:363-376 | Shunting twice equals shunting once. Two routes shunt to the same route exactly when they agree on identifier, predicates and endpoints. |
| `KubeRoutes.HealthcheckRoutes` | dataclients/kubernetes/kube.go:378-414 | Exactly two shunt routes: `kube__healthz_up` with status 200, and `kube__healthz_down` with status 503. The down route's predicates are the up route's plus `Shutdown()`. |
| `KubeRoutes.HealthcheckGuard` | dataclients/kubernetes/kube.go:389-407 | Both routes match the health-check path. The source predicate is `SourceFromLast` exactly when the reverse option is set, and `Source` otherwise. Its arguments read back as the allow-list in order. |
| `Eskip.ArgStringsOfStringArgs` | dataclients/kubernetes/kube.go:400-411 | In the model, the CIDR strings are carried as string arguments of the source predicate unchanged: reading them back gives the allow-list in order. |
| `KubeRoutes.GlobalRedirectRoute` | dataclients/kubernetes/kube.go:356-358 | A shunt route with the fixed identifier `kube__redirect`. Its only filter redirects to `https:` with the configured code. |
| `KubeRoutes.CommonReversedCounts` | dataclients/kubernetes/kube.go:494-505 | The result of compareStringList is no longer than `a`. It holds each element of `b` as often as `a` does, and nothing else. |
| `KubeRoutes.CompareStringList` | dataclients/kubernetes/kube.go:494-505 | The source's nested loops compute the reference definition: the elements of `a` that occur in `b`, in reverse order of `a`, repeats kept. |
| `KubeDiff.Diff` | dataclients/kubernetes/kube.go:449-462 | For every map order: each upserted route is the one `next` holds, and their identifiers are exactly the new or re-printed ones, each once. The deleted identifiers are exactly those missing from `next`, each once. No identifier is both upserted and deleted, and changed routes come before new ones. |
| `KubeDiff.WalkCurrent` | dataclients/kubernetes/kube.go:449-456 | The loop over `current` emits exactly the identifiers that are in both tables and print differently, each once and with the route `next` holds. It also emits exactly the identifiers that `next` lacks, each once. |
| `KubeDiff.WalkNext` | dataclients/kubernetes/kube.go:458-462 | The loop over `next` keeps the changed routes in front and appends exactly the routes whose identifier `current` lacks, each once. |
| `KubeDiff.ApplyDiffReachesNext` | dataclients/kubernetes/kube.go:441-469 | Applying a correct diff to `current` gives a table with the identifiers of `next`, each route printing like its counterpart in `next`. When the printer tells routes apart, the table is exactly `next`. |
| `KubeDiff.EmptyDiffIffUnchanged` | dataclients/kubernetes/kube.go:449-462 | The diff is empty exactly when the identifiers are the same and every route prints as before. Diffing a table against itself gives nothing. |
| `KubeDiff.DiffSizes` | dataclients/kubernetes/kube.go:449-462 | A correct diff has one upserted route per new or changed identifier and one deleted identifier per vanished one. |
| `KubeDiff.RepeatedDiffIsEmpty` | dataclients/kubernetes/kube.go:441-469 | Two polls with no change in between: the second returns no upserts and no deletes. |
| `KubeDiff.OneChangedRouteDiff` | dataclients/kubernetes/kube.go:449-456 | When one route changes its printed form and nothing else changes, the diff upserts that route alone and deletes nothing. |
| `KubeDiff.OneRemovedRouteDiff` | dataclients/kubernetes/kube.go:449-456 | When one route disappears, the diff deletes its identifier alone and upserts nothing. |
| `KubeClient.New` | dataclients/kubernetes/kube.go:203-277 | A URL failure is fatal, and so is a cluster-client failure. It succeeds exactly when neither happens. A new client starts with an empty table and an open quit channel. Its class, east-west and allow-list settings are the defaulted options. Its redirect code is the configured one when positive and 308 otherwise. |
| `KubeClient.FetchDefaultFilterConfigs` | dataclients/kubernetes/kube.go:478-492 | It never fails. No directory or an unreadable directory gives no presets. Otherwise it gives what was read. |
| `KubeClient.SyntheticRoutes` | dataclients/kubernetes/kube.go:352-358 | The health-check pair comes first (only when enabled), then the redirect route (only when enabled). Their identifiers are distinct. |
| `KubeClient.LoadAndConvert` | dataclients/kubernetes/kube.go:332-361 | A fetch error or either converter's error aborts the cycle with that error and no routes. Otherwise the output is the ingress routes, then the route-group routes, then the synthetic routes. |
| `KubeClient.SyntheticRoutesWin` | dataclients/kubernetes/kube.go:350-358 | Whatever the converters return, the table holds each synthetic route under its identifier. |
| `KubeClient.LoadAll` | dataclients/kubernetes/kube.go:416-427 | On failure: no routes, the error wrapped, and the client unchanged. On success: the converted routes are returned, and the table becomes exactly their mapping by identifier, the later of two equal identifiers winning. Nothing else in the client changes. |
| `KubeClient.LoadAndConvertIgnoresTable` | dataclients/kubernetes/kube.go:332-361 | A cycle's result does not depend on the published table, only on the configuration and the poll. |
| `KubeClient.UpdateAfterLoadAllIsEmpty` | dataclients/kubernetes/kube.go:416-470 | After a successful `LoadAll`, a `LoadUpdate` over the same cluster state upserts nothing and deletes nothing. |
| `KubeClient.LoadUpdate` | dataclients/kubernetes/kube.go:433-470 | On failure: no upserts, no deletes, the error as is, and the client unchanged. On success: a correct diff from the old table to the mapped new routes, which become the table. |
| `KubeClient.Close` | dataclients/kubernetes/kube.go:472-476 | A nil client, or one with no quit channel, is returned unchanged. A client with an open channel comes back with the channel closed and nothing else changed. It fails exactly when the channel is already closed. |
| `KubeClient.CloseTwiceFails` | dataclients/kubernetes/kube.go:472-476 | Whenever the API URL resolves, the client `New` builds can be closed once. Closing it a second time fails. |
| `Block.CreateFilter` | filters/block/block.go:35-53 | It succeeds exactly when there is at least one argument and every argument is a string. The match list is then the arguments in order. Any failure is ErrInvalidFilterParameters. |
| `Block.Contains` | filters/block/block.go:94 | True exactly when the byte string occurs at some offset of the buffer. |
| `Block.AnyMatch` | filters/block/block.go:93-99 | True exactly when some match string occurs in the buffer. |
| `Block.EmptyStringOccurs` | filters/block/block.go:94 | The empty byte string occurs in every buffer. |
| `Block.Read` | filters/block/block.go:80-103 | The count is never more than the buffer length, and the buffer keeps its length. A block buffer keeps its match list and closed flag across reads. |
| `Block.ReadWhenClosed` | filters/block/block.go:82-85 | A closed buffer returns (0, ErrClosed) without reading the wrapped body or touching the caller's buffer. |
| `Block.ReadWhenOpen` | filters/block/block.go:86-102 | An open buffer reads the wrapped body once. A non-EOF error is returned with count 0. Otherwise ErrBlocked with count 0 is returned exactly when a match string occurs anywhere in the buffer. Otherwise the wrapped (n, err) is returned unchanged, io.EOF included. |
| `Block.NoMatchGetsThrough` | filters/block/block.go:93-102 | No read that returns nil or io.EOF leaves a match string in the caller's buffer. |
| `Block.EmptyMatchAlwaysBlocks` | filters/block/block.go:93-98 | An empty match string blocks every read of an open buffer that does not fail outright. |
| `Block.SplitMatchPassesThrough` | filters/block/block.go:80-103 | Reads are checked one at a time, so a match string split across two reads can be passed on, as this two-read example shows. |
| `Block.CloseIdempotent` | filters/block/block.go:105-111 | The first Close closes the wrapped body and returns its result. Every later Close returns nil and changes nothing. Reads after Close fail with ErrClosed. |
| `Block.FilterRequest` | filters/block/block.go:55-62 | A request with content length 0 is untouched. Any other request has its body wrapped in an open block buffer with the filter's match list, including one of unknown length (-1). |
| `Block.FilteredBodyHidesMatches` | filters/block/block.go:55-62 | Once a request with a body has passed the filter, no read of its body that returns nil or io.EOF leaves a match string in the caller's buffer. |
| `Block.Close` | filters/block/block.go:105-111 | On an open block buffer: closes the wrapped body and returns that close's error. On a closed one: returns nil and changes nothing. Either way the buffer is closed afterwards and keeps its match list. A plain body is marked closed and returns its own close error. |

## Left out

- **Cluster access and converters.** Fetching the cluster state
  (`fetchClusterState`), the ingress and route-group converters, and
  `newClusterClient` involve network I/O and code outside `kube.go`. They
  appear only as the values and functions in `Cluster` and as a failure
  parameter of `New`.
- **Default filters from disk.** `readDefaultFilters` does file-system I/O.
  Its outcome is a parameter, and the presets are opaque strings.
- **Environment.** `os.Getenv` is replaced by the `ServiceEnv` parameter.
- **Default URL.** `defaultKubernetesURL` is defined outside `kube.go`. Its
  value, `http://localhost:8001`, is taken from the option's documentation at
  `kube.go:81`.
- `KubeRoutes.GlobalRedirectRoute`: `globalRedirectRoute` is defined outside
  `kube.go`. Its predicate, which matches `X-Forwarded-Proto: http`, is
  reconstructed from the option's documentation at `kube.go:109-116`. The
  contract states only the identifier, the filter and the shunt backend.
- **Health-check route construction.** The template and `eskip.Parse` are
  replaced by building the two routes directly. The `disableAccessLog(200)`
  filter is left out: it depends on the log level and only affects logging.
  The source discards the errors of `template.Execute` and `eskip.Parse`
  (`kube.go:410-411`), so a parse failure would yield no health-check routes
  at all. That path is not modelled: the model always builds the two routes.
- **Shared allow-list.** The package variable `internalIPs` is modelled as a
  per-client allow-list. In the source, every `New` call with whitelisted
  ranges appends them to one shared list. A second client would see the first
  client's extras too, and that is not modelled.
- `KubeConfig.ParsePathMode`: Go also returns the mode `0` alongside the error.
  The model returns only the error.
- **Numeric arguments.** Route arguments that are numbers are float64 in Go.
  They are modelled as integers, since the client only writes integral status
  codes.
- **Client-side background work.** Beyond the quit channel's state, `Close`
  models no background activity, and no goroutine is modelled.
- **Logging.** All logging is left out, as is the debug `println(req.Body)`
  in the block filter's `Request`.
- **Ignored and carried-only options.** Regular-expression compilation for
  classes and allowed external names is not modelled. Deprecated options, and
  options that only reach the converters, are either carried unchanged
  (namespace, path mode) or dropped (ingress v1, origin marker, allowed
  external names, backend tracing tag, east-west range settings).
- **Block filter.** `blockBuffer.maxBufferSize` and `defaultMaxBufferSize` are
  never used by the source, so they are not modelled. The filter's `Response`
  does nothing and its `Name` is a constant, so neither is modelled.
- `Block.Read`: its own contract states only bounds and state preservation.
  Its full behaviour is stated by `Block.ReadWhenClosed` and
  `Block.ReadWhenOpen`.
- **Test fixture.** `dataclients/kubernetes/kubernetestest/api.go` is a test
  HTTP fixture and is not part of this model.

### Behaviour of the code worth knowing

- **Closing twice.** `Client.Close` is not idempotent. It closes the `quit`
  channel unconditionally, so a second call closes a closed channel and
  panics. See `KubeClient.CloseTwiceFails`.
- **Duplicate identifiers.** `LoadAll` returns the converted list as it is, so
  duplicate identifiers from the converters reach the caller. Only the stored
  table is free of duplicates, and in it the later route wins. See
  `KubeClient.LoadAll` and `KubeRoutes.MapRoutes`.
- **Route equality.** `LoadUpdate` decides that a route changed by comparing
  printed forms, not route values. Two routes that print alike count as
  unchanged. See `KubeDiff.ApplyDiffReachesNext`.
- **No failing health check on API errors.** The `ProvideHealthcheck` option's
  comment (`kube.go:99-103`) promises a failing health-check route when the
  API communication fails. The code does not add one: `loadAndConvert`
  returns the fetch error with no routes at all (`kube.go:333-336`). See
  `KubeClient.LoadAndConvert`.
- **Redirect code.** The `ProvideHTTPSRedirect` option's comment
  (`kube.go:110`) says the redirect answers 301. The code defaults the code to
  308 when none is configured (`kube.go:241-243`). See `KubeConfig.RedirectCode`.
- **Error wrapping.** `LoadAll` wraps the cycle's error ("failed to load
  cluster state"). `LoadUpdate` returns it unwrapped.

=== FILE: block.dfy ===
/** The body-blocking filter: it wraps a request body in a reader that
    refuses to pass on any read whose buffer contains one of the configured
    byte strings. A Go string is a byte string, so match strings and bodies
    are both sequences of bytes. */
module Block {

  import opened Wrappers

  newtype byte = x: int | 0 <= x < 256

  type Bytes = seq<byte>

  /** A filter argument as written in a route: a string, a number, or a
      value of some other type. Unlike the route arguments of the data
      client, whose strings are text, this filter compares its string
      arguments byte by byte, so they are kept as byte strings here. */
  datatype Arg = StringArg(s: Bytes) | NumberArg(n: int) | OtherArg

  /** filters.ErrInvalidFilterParameters */
  datatype FilterError = ErrInvalidFilterParameters

  /** Errors a read can report: io.EOF, the filter's own two errors, and any
      failure of the underlying reader. */
  datatype ReadError = EOF | ErrClosed | ErrBlocked | IOFailure(reason: string)

  /** A created filter: the byte strings to block on, in argument order. */
  datatype BlockFilter = BlockFilter(matches: seq<Bytes>)

  // ------------------------------------------------------------ CreateFilter

  /** blockSpec.CreateFilter: at least one argument, and every argument a
      string; the match list is the arguments in order. */
  method CreateFilter(args: seq<Arg>) returns (r: Result<BlockFilter, FilterError>)
    ensures r.Success? <==> |args| > 0 && forall i :: 0 <= i < |args| ==> args[i].StringArg?
    ensures r.Failure? ==> r.error == ErrInvalidFilterParameters
    ensures r.Success? ==>
      |r.value.matches| == |args| && forall i :: 0 <= i < |args| ==> args[i] == StringArg(r.value.matches[i])
  {
    if |args| == 0 {
      return Failure(ErrInvalidFilterParameters);
    }
    var sargs: seq<Bytes> := [];
    var k := 0;
    while k < |args|
      invariant 0 <= k <= |args|
      invariant |sargs| == k
      invariant forall i :: 0 <= i < k ==> args[i] == StringArg(sargs[i])
    {
      match args[k] {
        case StringArg(v) =>
          sargs := sargs + [v];
        case _ =>
          return Failure(ErrInvalidFilterParameters);
      }
      k := k + 1;
    }
    return Success(BlockFilter(sargs));
  }

  // ---------------------------------------------------------------- matching

  /** `s` occurs in `p` at offset `i`. */
  predicate OccursAt(s: Bytes, p: Bytes, i: int)
  {
    0 <= i && i + |s| <= |p| && p[i..i + |s|] == s
  }

  /** bytes.Contains(p, s) */
  function Contains(p: Bytes, s: Bytes): (r: bool)
    ensures r <==> exists i :: OccursAt(s, p, i)
    decreases |p|
  {
    if |s| <= |p| && p[..|s|] == s then
      assert OccursAt(s, p, 0);
      true
    else if p == [] then
      false
    else
      var r := Contains(p[1..], s);
      assert forall i :: OccursAt(s, p[1..], i) ==> OccursAt(s, p, i + 1) by {
        forall i | OccursAt(s, p[1..], i) ensures OccursAt(s, p, i + 1) {
          assert p[1..][i..i + |s|] == p[i + 1..i + 1 + |s|];
        }
      }
      assert forall i :: OccursAt(s, p, i) && i > 0 ==> OccursAt(s, p[1..], i - 1) by {
        forall i | OccursAt(s, p, i) && i > 0 ensures OccursAt(s, p[1..], i - 1) {
          assert p[1..][i - 1..i - 1 + |s|] == p[i..i + |s|];
        }
      }
      assert !OccursAt(s, p, 0);
      r
  }

  /** Some match string occurs in the buffer; the source's loop over the
      match list stops at the first one. */
  function AnyMatch(p: Bytes, matches: seq<Bytes>): (r: bool)
    ensures r <==> exists k :: 0 <= k < |matches| && Contains(p, matches[k])
  {
    if matches == [] then false
    else Contains(p, matches[0]) || AnyMatch(p, matches[1..])
  }

  /** The empty byte string occurs in every buffer. */
  lemma EmptyStringOccurs(p: Bytes)
    ensures Contains(p, [])
  {
  }

  // ------------------------------------------------------------------ bodies

  /** One answer of the underlying reader: the bytes it delivers and the
      error that goes with them. */
  datatype Chunk = Chunk(data: Bytes, err: Option<ReadError>)

  /** The underlying request body: the answers it has left to give, whether
      it was closed, and what closing it returns. */
  datatype Source = Source(chunks: seq<Chunk>, closed: bool, closeErr: Option<ReadError>)

  /** A request body: the original one, or a block buffer around another
      body (a route may chain block filters). */
  datatype Body =
    | Raw(source: Source)
    | Guarded(input: Body, closed: bool, matches: seq<Bytes>)

  /** The result of one Read: the count and error returned, the caller's
      buffer after the call, and the body's new state. */
  datatype ReadOutcome = ReadOutcome(n: int, err: Option<ReadError>, p: Bytes, body: Body)

  /** Read on the underlying body. A chunk longer than the buffer is
      delivered in parts; an exhausted body reports io.EOF; a closed one
      fails. Bytes beyond the delivered count keep their old values. */
  function SourceRead(s: Source, p: Bytes): (o: ReadOutcome)
    ensures 0 <= o.n <= |p| && |o.p| == |p| && o.p[o.n..] == p[o.n..]
    ensures o.body.Raw? && o.body.source.closed == s.closed && o.body.source.closeErr == s.closeErr
  {
    if s.closed then
      ReadOutcome(0, Some(IOFailure("read on closed body")), p, Raw(s))
    else if s.chunks == [] then
      ReadOutcome(0, Some(EOF), p, Raw(s))
    else
      var c := s.chunks[0];
      if |c.data| <= |p| then
        ReadOutcome(|c.data|, c.err, c.data + p[|c.data|..], Raw(s.(chunks := s.chunks[1..])))
      else
        ReadOutcome(|p|, None, c.data[..|p|],
          Raw(s.(chunks := [Chunk(c.data[|p|..], c.err)] + s.chunks[1..])))
  }

  /** A hard read failure: any error other than io.EOF. */
  predicate HardError(err: Option<ReadError>)
  {
    err.Some? && err.value != EOF
  }

  /** Read on a body; for a block buffer, blockBuffer.Read. */
  function Read(b: Body, p: Bytes): (o: ReadOutcome)
    ensures 0 <= o.n <= |p| && |o.p| == |p|
    ensures b.Guarded? ==> o.body.Guarded? && o.body.matches == b.matches && o.body.closed == b.closed
    decreases b
  {
    match b
    case Raw(s) => SourceRead(s, p)
    case Guarded(input, closed, matches) =>
      if closed then ReadOutcome(0, Some(ErrClosed), p, b)
      else
        var o := Read(input, p);
        var b' := Guarded(o.body, false, matches);
        if HardError(o.err) then ReadOutcome(0, o.err, o.p, b')
        else if AnyMatch(o.p, matches) then ReadOutcome(0, Some(ErrBlocked), o.p, b')
        else ReadOutcome(o.n, o.err, o.p, b')
  }

  /** Close on a body; for a block buffer, blockBuffer.Close. */
  function Close(b: Body): (r: (Option<ReadError>, Body))
    ensures b.Raw? ==> r.0 == b.source.closeErr && r.1 == Raw(b.source.(closed := true))
    ensures b.Guarded? ==> r.1.Guarded? && r.1.closed && r.1.matches == b.matches
    ensures b.Guarded? && b.closed ==> r == (None, b)
    ensures b.Guarded? && !b.closed ==> r.0 == Close(b.input).0 && r.1.input == Close(b.input).1
    decreases b
  {
    match b
    case Raw(s) => (s.closeErr, Raw(s.(closed := true)))
    case Guarded(input, closed, matches) =>
      if closed then (None, b)
      else
        var (err, input') := Close(input);
        (err, Guarded(input', true, matches))
  }

  // ------------------------------------------------------- Read properties

  /** A closed block buffer answers every read with ErrClosed, leaving the
      caller's buffer and the underlying body untouched. */
  lemma ReadWhenClosed(b: Body, p: Bytes)
    requires b.Guarded? && b.closed
    ensures Read(b, p) == ReadOutcome(0, Some(ErrClosed), p, b)
  {
  }

  /** An open block buffer reads the body it wraps exactly once, and then:
      a hard error is passed on with count 0; otherwise a match anywhere in
      the buffer (not only in the bytes just read) gives ErrBlocked with
      count 0; otherwise the wrapped body's count and error, io.EOF
      included, are passed on unchanged. */
  lemma ReadWhenOpen(b: Body, p: Bytes)
    requires b.Guarded? && !b.closed
    ensures var inner := Read(b.input, p);
      var o := Read(b, p);
      && o.p == inner.p && o.body == Guarded(inner.body, false, b.matches)
      && (HardError(inner.err) ==> o.n == 0 && o.err == inner.err)
      && (!HardError(inner.err) ==>
            (o.err == Some(ErrBlocked) <==> exists k :: 0 <= k < |b.matches| && Contains(inner.p, b.matches[k])))
      && (!HardError(inner.err) && o.err == Some(ErrBlocked) ==> o.n == 0)
      && (!HardError(inner.err) && o.err != Some(ErrBlocked) ==> o.n == inner.n && o.err == inner.err)
  {
  }

  /** No read that succeeds or reports io.EOF leaves a match string in the
      caller's buffer. */
  lemma NoMatchGetsThrough(b: Body, p: Bytes, k: int)
    requires b.Guarded? && 0 <= k < |b.matches|
    requires Read(b, p).err.None? || Read(b, p).err == Some(EOF)
    ensures !Contains(Read(b, p).p, b.matches[k])
  {
  }

  /** An empty match string blocks every read of an open buffer that does
      not fail outright. */
  lemma EmptyMatchAlwaysBlocks(b: Body, p: Bytes)
    requires b.Guarded? && !b.closed && [] in b.matches
    requires !HardError(Read(b.input, p).err)
    ensures Read(b, p).err == Some(ErrBlocked) && Read(b, p).n == 0
  {
    var k :| 0 <= k < |b.matches| && b.matches[k] == [];
    EmptyStringOccurs(Read(b.input, p).p);
  }

  /** Each read is checked on its own: a match string split across two
      reads is passed on. */
  lemma SplitMatchPassesThrough()
    ensures var b := Guarded(Raw(Source([Chunk([1], None), Chunk([2], None)], false, None)), false, [[1, 2]]);
      var o1 := Read(b, [0]);
      var o2 := Read(o1.body, [0]);
      o1.n == 1 && o1.err.None? && o2.n == 1 && o2.err.None?
  {
  }

  // ------------------------------------------------------ Close properties

  /** Closing a block buffer is idempotent: the first call closes the
      wrapped body and returns its result; every later call returns nil and
      changes nothing. After closing, reads fail with ErrClosed. */
  lemma CloseIdempotent(b: Body, p: Bytes)
    requires b.Guarded?
    ensures var (err, b1) := Close(b);
      && (!b.closed ==> err == Close(b.input).0 && b1 == Guarded(Close(b.input).1, true, b.matches))
      && Close(b1) == (None, b1)
      && Read(b1, p) == ReadOutcome(0, Some(ErrClosed), p, b1)
  {
  }

  // ----------------------------------------------------------------- Request

  /** The parts of a request the filter looks at. A content length of -1
      means unknown. */
  datatype Request = Request(contentLength: int, body: Body)

  /** block.Request: a request declaring an empty body is left alone; any
      other, including one of unknown length, gets its body wrapped in a
      fresh, open block buffer. */
  function FilterRequest(f: BlockFilter, req: Request): (r: Request)
    ensures r.contentLength == req.contentLength
    ensures req.contentLength == 0 ==> r == req
    ensures req.contentLength != 0 ==> r.body == Guarded(req.body, false, f.matches)
  {
    if req.contentLength == 0 then req
    else req.(body := Guarded(req.body, false, f.matches))
  }

  /** Once a request with a body passed the filter, no read of that body
      that returns nil or io.EOF leaves a match string in the caller's
      buffer. */
  lemma FilteredBodyHidesMatches(f: BlockFilter, req: Request, p: Bytes, k: int)
    requires req.contentLength != 0 && 0 <= k < |f.matches|
    requires var o := Read(FilterRequest(f, req).body, p); o.err.None? || o.err == Some(EOF)
    ensures !Contains(Read(FilterRequest(f, req).body, p).p, f.matches[k])
  {
    NoMatchGetsThrough(FilterRequest(f, req).body, p, k);
  }
}

=== FILE: eskip.dfy ===
/** The route representation the Kubernetes data client produces. Only the
    fields the client reads or writes are modelled; the textual route
    language and its parser are not part of this model. */
module Eskip {

  import opened Wrappers

  /** A predicate or filter argument. Route arguments are Go `interface{}`
      values holding strings or float64 numbers; every number the client
      itself writes is integral, so numbers are modelled as integers. */
  datatype Arg = StringArg(s: string) | NumberArg(n: int)

  datatype Predicate = Predicate(name: string, args: seq<Arg>)

  datatype Filter = Filter(name: string, args: seq<Arg>)

  datatype BackendType = NetworkBackend | ShuntBackend | LoopBackend | DynamicBackend | LBBackend

  datatype Route = Route(
    id: string,
    predicates: seq<Predicate>,
    filters: seq<Filter>,
    backendType: BackendType,
    backend: string,
    lbEndpoints: seq<string>)

  /** The identifiers occurring in a list of routes. */
  function IdSet(rs: seq<Route>): set<string>
  {
    set r | r in rs :: r.id
  }

  lemma IdSetAppend(rs: seq<Route>, r: Route)
    ensures IdSet(rs + [r]) == IdSet(rs) + {r.id}
  {
  }

  /** No identifier occurs twice in the list. */
  predicate DistinctIds(rs: seq<Route>)
  {
    forall i, j :: 0 <= i < j < |rs| ==> rs[i].id != rs[j].id
  }

  /** A route table in which every route is stored under its own identifier. */
  predicate Keyed(m: map<string, Route>)
  {
    forall id :: id in m ==> m[id].id == id
  }

  /** The strings of a list, as string arguments, in order. */
  function StringArgs(ss: seq<string>): (args: seq<Arg>)
    ensures |args| == |ss|
    ensures forall i :: 0 <= i < |ss| ==> args[i] == StringArg(ss[i])
  {
    if ss == [] then [] else [StringArg(ss[0])] + StringArgs(ss[1..])
  }

  /** Reads a list of arguments back as strings; fails on any non-string. */
  function ArgStrings(args: seq<Arg>): (r: Option<seq<string>>)
    ensures r.Some? <==> forall i :: 0 <= i < |args| ==> args[i].StringArg?
    ensures r.Some? ==> |r.value| == |args| && forall i :: 0 <= i < |args| ==> args[i] == StringArg(r.value[i])
  {
    if args == [] then Some([])
    else if !args[0].StringArg? then None
    else match ArgStrings(args[1..])
      case None => None
      case Some(rest) => Some([args[0].s] + rest)
  }

  /** Printing strings as arguments and reading them back is lossless. */
  lemma {:induction false} ArgStringsOfStringArgs(ss: seq<string>)
    ensures ArgStrings(StringArgs(ss)) == Some(ss)
  {
    if ss != [] {
      assert StringArgs(ss)[1..] == StringArgs(ss[1..]);
      ArgStringsOfStringArgs(ss[1..]);
      assert [ss[0]] + ss[1..] == ss;
    }
  }
}

=== FILE: kube_client.dfy ===
/** The Kubernetes data client: construction from options, one
    fetch-convert-synthesize cycle, the full and the incremental load, and
    closing. The cluster API and the converters are outside this model: one
    poll is given as a `Cluster` value holding what they return. */
module KubeClient {

  import opened Wrappers
  import opened Eskip
  import opened KubeConfig
  import opened KubeRoutes
  import opened KubeDiff

  datatype Error =
    | ConfigFailure(config: ConfigError)
    | External(msg: string)             // an error from the cluster API or a converter
    | LoadFailure(cause: Error)         // "failed to load cluster state: %w"
    | CloseOfClosedChannel              // the panic of closing `quit` twice

  /** Default filter presets, keyed by service; their syntax is not part of
      this model. */
  type DefaultFilters = map<string, string>

  /** What one poll of the cluster yields: the fetched state (opaque, type
      `S`), the outcome of reading the default-filters directory, and the
      two converters, which see the state and the default filters (the
      certificate registry is folded into the ingress converter). */
  datatype Cluster<!S> = Cluster(
    fetched: Result<S, Error>,
    readDefaults: Result<DefaultFilters, Error>,
    convertIngress: (S, DefaultFilters) -> Result<seq<Route>, Error>,
    convertRouteGroups: (S, DefaultFilters) -> Result<seq<Route>, Error>)

  /** The state of the `quit` channel. `NoQuit` is the nil channel of a
      zero-valued client. */
  datatype Quit = NoQuit | QuitOpen | QuitClosed

  datatype Options = Options(
    inCluster: bool,
    kubernetesURL: string,
    namespace: string,
    enableEastWest: bool,
    provideHealthcheck: bool,
    provideHTTPSRedirect: bool,
    httpsRedirectCode: int,
    ingressClass: string,
    routeGroupClass: string,
    reverseSourcePredicate: bool,
    whitelistedHealthCheckCIDR: seq<string>,
    pathMode: PathMode,
    eastWestDomain: string,
    defaultFiltersDir: string)

  /** The client and the settings its cluster client and converters were
      built with. `current` is the route table last published. */
  datatype Client = Client(
    apiURL: string,
    namespace: string,
    ingressClass: string,
    routeGroupClass: string,
    eastWestDomain: string,
    pathMode: PathMode,
    provideHealthcheck: bool,
    provideHTTPSRedirect: bool,
    reverseSourcePredicate: bool,
    httpsRedirectCode: int,
    healthcheckCIDRs: seq<string>,
    current: map<string, Route>,
    quit: Quit,
    defaultFiltersDir: string)

  /** New: resolve the API URL (fatal on failure), apply the option
      defaults, build the cluster client (whose own failure, given as
      `clusterClientErr`, is returned) and start with an empty table. */
  function New(o: Options, env: ServiceEnv, clusterClientErr: Option<Error>): (r: Result<Client, Error>)
    ensures BuildAPIURL(o.inCluster, o.kubernetesURL, env).Failure? ==>
      r == Failure(ConfigFailure(APIServerURLNotFound))
    ensures BuildAPIURL(o.inCluster, o.kubernetesURL, env).Success? && clusterClientErr.Some? ==>
      r == Failure(clusterClientErr.value)
    ensures r.Success? <==> BuildAPIURL(o.inCluster, o.kubernetesURL, env).Success? && clusterClientErr.None?
    ensures r.Success? ==>
      && r.value.apiURL == BuildAPIURL(o.inCluster, o.kubernetesURL, env).value
      && r.value.current == map[] && r.value.quit == QuitOpen
      && r.value.ingressClass == ClassOrDefault(o.ingressClass, DefaultIngressClass) != ""
      && r.value.routeGroupClass == ClassOrDefault(o.routeGroupClass, DefaultRouteGroupClass) != ""
      && r.value.httpsRedirectCode == RedirectCode(o.httpsRedirectCode)
      && (o.httpsRedirectCode <= 0 ==> r.value.httpsRedirectCode == StatusPermanentRedirect)
      && (o.httpsRedirectCode > 0 ==> r.value.httpsRedirectCode == o.httpsRedirectCode)
      && r.value.eastWestDomain == EastWestDomain(o.enableEastWest, o.eastWestDomain)
      && r.value.namespace == o.namespace && r.value.pathMode == o.pathMode
      && r.value.defaultFiltersDir == o.defaultFiltersDir
      && r.value.healthcheckCIDRs == InternalIPs + o.whitelistedHealthCheckCIDR
      && r.value.provideHealthcheck == o.provideHealthcheck
      && r.value.provideHTTPSRedirect == o.provideHTTPSRedirect
      && r.value.reverseSourcePredicate == o.reverseSourcePredicate
  {
    match BuildAPIURL(o.inCluster, o.kubernetesURL, env)
    case Failure(e) => Failure(ConfigFailure(e))
    case Success(apiURL) =>
      if clusterClientErr.Some? then Failure(clusterClientErr.value)
      else Success(Client(
        apiURL := apiURL,
        namespace := o.namespace,
        ingressClass := ClassOrDefault(o.ingressClass, DefaultIngressClass),
        routeGroupClass := ClassOrDefault(o.routeGroupClass, DefaultRouteGroupClass),
        eastWestDomain := EastWestDomain(o.enableEastWest, o.eastWestDomain),
        pathMode := o.pathMode,
        provideHealthcheck := o.provideHealthcheck,
        provideHTTPSRedirect := o.provideHTTPSRedirect,
        reverseSourcePredicate := o.reverseSourcePredicate,
        httpsRedirectCode := RedirectCode(o.httpsRedirectCode),
        healthcheckCIDRs := HealthcheckCIDRs(o.whitelistedHealthCheckCIDR),
        current := map[],
        quit := QuitOpen,
        defaultFiltersDir := o.defaultFiltersDir))
  }

  /** fetchDefaultFilterConfigs: never fails the cycle. No directory, or a
      directory that cannot be read, gives no presets. */
  function FetchDefaultFilterConfigs(dir: string, read: Result<DefaultFilters, Error>): (r: DefaultFilters)
    ensures dir == "" || read.Failure? ==> r == map[]
    ensures dir != "" && read.Success? ==> r == read.value
  {
    if dir == "" then map[]
    else match read
      case Failure(_) => map[]
      case Success(filters) => filters
  }

  /** The routes the client adds to every successful conversion: the
      health-check pair when enabled, then the redirect route when
      enabled. Their identifiers are distinct. */
  function SyntheticRoutes(c: Client): (rs: seq<Route>)
    ensures |rs| == (if c.provideHealthcheck then 2 else 0) + (if c.provideHTTPSRedirect then 1 else 0)
    ensures c.provideHealthcheck ==> rs[..2] == HealthcheckRoutes(c.reverseSourcePredicate, c.healthcheckCIDRs)
    ensures c.provideHTTPSRedirect ==> rs[|rs| - 1] == GlobalRedirectRoute(c.httpsRedirectCode)
    ensures DistinctIds(rs)
  {
    (if c.provideHealthcheck then HealthcheckRoutes(c.reverseSourcePredicate, c.healthcheckCIDRs) else [])
      + (if c.provideHTTPSRedirect then [GlobalRedirectRoute(c.httpsRedirectCode)] else [])
  }

  /** loadAndConvert: fetch, read default filters, convert ingresses, then
      route groups; the first error aborts the cycle with no routes.
      Otherwise the output is the ingress routes, then the route-group
      routes, then the synthetic routes. */
  function LoadAndConvert<S>(c: Client, cl: Cluster<S>): (r: Result<seq<Route>, Error>)
    ensures cl.fetched.Failure? ==> r == Failure(cl.fetched.error)
    ensures cl.fetched.Success? ==>
      var df := FetchDefaultFilterConfigs(c.defaultFiltersDir, cl.readDefaults);
      var ri := cl.convertIngress(cl.fetched.value, df);
      var rg := cl.convertRouteGroups(cl.fetched.value, df);
      && (ri.Failure? ==> r == Failure(ri.error))
      && (ri.Success? && rg.Failure? ==> r == Failure(rg.error))
      && (ri.Success? && rg.Success? ==>
            && r.Success?
            && |r.value| == |ri.value| + |rg.value| + |SyntheticRoutes(c)|
            && r.value[..|ri.value|] == ri.value
            && r.value[|ri.value|..|ri.value| + |rg.value|] == rg.value
            && r.value[|ri.value| + |rg.value|..] == SyntheticRoutes(c))
  {
    match cl.fetched
    case Failure(e) => Failure(e)
    case Success(state) =>
      var df := FetchDefaultFilterConfigs(c.defaultFiltersDir, cl.readDefaults);
      match cl.convertIngress(state, df)
      case Failure(e) => Failure(e)
      case Success(ri) =>
        match cl.convertRouteGroups(state, df)
        case Failure(e) => Failure(e)
        case Success(rg) =>
          var r := ri + rg + SyntheticRoutes(c);
          assert r[..|ri|] == ri;
          assert r[|ri|..|ri| + |rg|] == rg;
          Success(r)
  }

  /** Whatever the converters produce, the synthetic routes are what the
      route table holds under their identifiers, because they come last. */
  lemma SyntheticRoutesWin<S>(c: Client, cl: Cluster<S>, k: int)
    requires LoadAndConvert(c, cl).Success?
    requires 0 <= k < |SyntheticRoutes(c)|
    ensures var syn := SyntheticRoutes(c);
      var table := MapRoutes(LoadAndConvert(c, cl).value);
      syn[k].id in table && table[syn[k].id] == syn[k]
  {
  }

  /** A cycle does not read the published table: the routes it produces
      depend only on the configuration and the poll. */
  lemma LoadAndConvertIgnoresTable<S>(c: Client, cl: Cluster<S>, table: map<string, Route>)
    ensures LoadAndConvert(c.(current := table), cl) == LoadAndConvert(c, cl)
  {
  }

  /** After a successful LoadAll, a LoadUpdate on an unchanged poll has
      nothing to report: any correct diff between the published table and
      the cycle's new table is empty. */
  lemma UpdateAfterLoadAllIsEmpty<S>(c: Client, cl: Cluster<S>, show: Route -> string,
                                    upserted: seq<Route>, deleted: seq<string>)
    requires LoadAndConvert(c, cl).Success?
    requires var c1 := LoadAll(c, cl).client;
      IsDiff(c1.current, MapRoutes(LoadAndConvert(c1, cl).value), show, upserted, deleted)
    ensures upserted == [] && deleted == []
  {
    var c1 := LoadAll(c, cl).client;
    LoadAndConvertIgnoresTable(c, cl, c1.current);
    RepeatedDiffIsEmpty(c1.current, show, upserted, deleted);
  }

  /** The outcome of LoadAll: the routes returned, the error returned and
      the client afterwards. */
  datatype Loaded = Loaded(routes: seq<Route>, err: Option<Error>, client: Client)

  /** LoadAll: on failure nothing is returned, the error is wrapped and the
      published table is kept; on success the converted routes are returned
      as they are and replace the table wholesale. */
  function LoadAll<S>(c: Client, cl: Cluster<S>): (out: Loaded)
    ensures LoadAndConvert(c, cl).Failure? ==>
      out.routes == [] && out.err == Some(LoadFailure(LoadAndConvert(c, cl).error)) && out.client == c
    ensures LoadAndConvert(c, cl).Success? ==>
      && out.routes == LoadAndConvert(c, cl).value && out.err.None?
      && out.client == c.(current := MapRoutes(out.routes))
      && out.client.current.Keys == IdSet(out.routes) && Keyed(out.client.current)
  {
    match LoadAndConvert(c, cl)
    case Failure(e) => Loaded([], Some(LoadFailure(e)), c)
    case Success(r) => Loaded(r, None, c.(current := MapRoutes(r)))
  }

  /** LoadUpdate: on failure nothing is returned, the error is returned as
      it is and the table is kept; on success the diff between the table
      and the new routes is returned and the new routes become the table. */
  method LoadUpdate<S>(c: Client, cl: Cluster<S>, show: Route -> string)
    returns (upserted: seq<Route>, deleted: seq<string>, err: Option<Error>, c': Client)
    ensures LoadAndConvert(c, cl).Failure? ==>
      upserted == [] && deleted == [] && err == Some(LoadAndConvert(c, cl).error) && c' == c
    ensures LoadAndConvert(c, cl).Success? ==>
      && err.None?
      && c' == c.(current := MapRoutes(LoadAndConvert(c, cl).value))
      && IsDiff(c.current, c'.current, show, upserted, deleted)
  {
    match LoadAndConvert(c, cl)
    case Failure(e) =>
      return [], [], Some(e), c;
    case Success(r) =>
      var next := MapRoutes(r);
      upserted, deleted := Diff(c.current, next, show);
      return upserted, deleted, None, c.(current := next);
  }

  /** Close: a nil client, or one without a quit channel, is left alone;
      otherwise the quit channel is closed. Closing it a second time is
      Go's close-of-closed-channel panic. */
  function Close(c: Option<Client>): (r: Result<Option<Client>, Error>)
    ensures c.None? ==> r == Success(None)
    ensures c.Some? && c.value.quit == NoQuit ==> r == Success(c)
    ensures c.Some? && c.value.quit == QuitOpen ==> r == Success(Some(c.value.(quit := QuitClosed)))
    ensures r.Failure? <==> c.Some? && c.value.quit == QuitClosed
  {
    match c
    case None => Success(None)
    case Some(client) =>
      match client.quit
      case NoQuit => Success(c)
      case QuitOpen => Success(Some(client.(quit := QuitClosed)))
      case QuitClosed => Failure(CloseOfClosedChannel)
  }

  /** A client made by `New` can be closed once; closing it again fails. */
  lemma CloseTwiceFails(o: Options, env: ServiceEnv)
    requires BuildAPIURL(o.inCluster, o.kubernetesURL, env).Success?
    ensures Close(Some(New(o, env, None).value)).Success?
    ensures Close(Close(Some(New(o, env, None).value)).value) == Failure(CloseOfClosedChannel)
  {
  }
}

=== FILE: kube_config.dfy ===
/** Configuration resolution of the Kubernetes data client: where the API
    server is, how ingress paths are interpreted, and the defaults `New`
    applies to its options. */
module KubeConfig {

  import opened Wrappers

  /** Errors raised while resolving the configuration. */
  datatype ConfigError = APIServerURLNotFound | InvalidPathMode(s: string)

  const DefaultKubernetesURL: string := "http://localhost:8001"
  const DefaultIngressClass: string := "skipper"
  const DefaultRouteGroupClass: string := "skipper"
  const DefaultEastWestDomain: string := "skipper.cluster.local"
  /** http.StatusPermanentRedirect */
  const StatusPermanentRedirect: int := 308

  /** The two values the in-cluster environment supplies
      (KUBERNETES_SERVICE_HOST and KUBERNETES_SERVICE_PORT); an unset
      variable reads as the empty string. */
  datatype ServiceEnv = ServiceEnv(host: string, port: string)

  // ---------------------------------------------------------------- API URL

  /** net.JoinHostPort: a host holding a colon (an IPv6 literal) is
      bracketed. */
  function JoinHostPort(host: string, port: string): (hp: string)
    ensures ':' in host ==> hp == "[" + host + "]:" + port
    ensures ':' !in host ==> hp == host + ":" + port
  {
    if ':' in host then "[" + host + "]:" + port else host + ":" + port
  }

  /** Index of the last occurrence of `c` in `s`, if any. */
  function LastIndexOf(s: string, c: char): (r: Option<nat>)
    ensures r.None? <==> c !in s
    ensures r.Some? ==> r.value < |s| && s[r.value] == c && c !in s[r.value + 1..]
  {
    if s == [] then None
    else if s[|s| - 1] == c then Some(|s| - 1)
    else
      var r := LastIndexOf(s[..|s| - 1], c);
      assert s[..|s| - 1] + [s[|s| - 1]] == s;
      r
  }

  /** Splits "host:port" at the last colon and strips one pair of brackets
      around the host. As in net.SplitHostPort, a host part that holds a
      colon must be bracketed ("too many colons" otherwise). */
  function SplitHostPort(hp: string): Option<(string, string)>
  {
    match LastIndexOf(hp, ':')
    case None => None
    case Some(i) =>
      var h := hp[..i];
      if |h| >= 2 && h[0] == '[' && h[|h| - 1] == ']' then Some((h[1..|h| - 1], hp[i + 1..]))
      else if ':' in h then None
      else Some((h, hp[i + 1..]))
  }

  /** A host holding a colon (an IPv6 literal) written without brackets
      does not split: only the bracketed form round-trips. */
  lemma UnbracketedIPv6DoesNotSplit(host: string, port: string)
    requires ':' in host && ':' !in port
    requires !(|host| >= 2 && host[0] == '[' && host[|host| - 1] == ']')
    ensures SplitHostPort(host + ":" + port) == None
  {
    var hp := host + ":" + port;
    assert hp[|host|] == ':';
    assert hp[|host| + 1..] == port;
    assert LastIndexOf(hp, ':') == Some(|host|);
    assert hp[..|host|] == host;
  }

  /** A host that is not itself a colon-free bracketed string. */
  predicate UnambiguousHost(host: string)
  {
    ':' in host || !(|host| >= 2 && host[0] == '[' && host[|host| - 1] == ']')
  }

  /** Joining a host and a colon-free port and splitting the result again
      gives back the host and the port, IPv6 literals included. */
  lemma JoinSplitRoundTrip(host: string, port: string)
    requires ':' !in port
    requires UnambiguousHost(host)
    ensures SplitHostPort(JoinHostPort(host, port)) == Some((host, port))
  {
    var hp := JoinHostPort(host, port);
    var pre := if ':' in host then "[" + host + "]" else host;
    assert hp == pre + ":" + port;
    assert hp[|pre|] == ':';
    assert hp[|pre| + 1..] == port;
    assert LastIndexOf(hp, ':') == Some(|pre|);
    assert hp[..|pre|] == pre;
  }

  /** buildAPIURL: outside the cluster the configured URL (or the local
      default); inside the cluster https:// plus the service host and port
      from the environment, both of which must be set. */
  function BuildAPIURL(inCluster: bool, kubernetesURL: string, env: ServiceEnv): (r: Result<string, ConfigError>)
    ensures !inCluster ==> r.Success?
    ensures !inCluster && kubernetesURL != "" ==> r.value == kubernetesURL
    ensures !inCluster && kubernetesURL == "" ==> r.value == DefaultKubernetesURL
    ensures inCluster ==> (r.Failure? <==> env.host == "" || env.port == "")
    ensures r.Failure? ==> r.error == APIServerURLNotFound
    ensures inCluster && r.Success? && ':' in env.host ==> r.value == "https://[" + env.host + "]:" + env.port
    ensures inCluster && r.Success? && ':' !in env.host ==> r.value == "https://" + env.host + ":" + env.port
    ensures inCluster && r.Success? ==>
      |r.value| >= 8 && r.value[..8] == "https://" && (':' !in env.port && UnambiguousHost(env.host) ==>
        SplitHostPort(r.value[8..]) == Some((env.host, env.port)))
  {
    if !inCluster then
      if kubernetesURL == "" then Success(DefaultKubernetesURL) else Success(kubernetesURL)
    else if env.host == "" || env.port == "" then
      Failure(APIServerURLNotFound)
    else
      HttpsURLSplits(env.host, env.port);
      Success("https://" + JoinHostPort(env.host, env.port))
  }

  /** The in-cluster URL carries the scheme and then a host-port pair that
      splits back into the service host and port. */
  lemma HttpsURLSplits(host: string, port: string)
    ensures var u := "https://" + JoinHostPort(host, port);
      |u| >= 8 && u[..8] == "https://" && u[8..] == JoinHostPort(host, port)
      && (':' !in port && UnambiguousHost(host) ==> SplitHostPort(u[8..]) == Some((host, port)))
  {
    var hp := JoinHostPort(host, port);
    assert ("https://" + hp)[8..] == hp;
    if ':' !in port && UnambiguousHost(host) {
      JoinSplitRoundTrip(host, port);
    }
  }

  /** The documented in-cluster example. */
  lemma InClusterURLExample()
    ensures BuildAPIURL(true, "", ServiceEnv("10.0.0.1", "443")) == Success("https://10.0.0.1:443")
    ensures BuildAPIURL(true, "", ServiceEnv("10.0.0.1", "")) == Failure(APIServerURLNotFound)
  {
    var host: string := "10.0.0.1";
    assert forall k :: 0 <= k < |host| ==> host[k] != ':';
    assert JoinHostPort(host, "443") == "10.0.0.1:443";
    assert "https://" + "10.0.0.1:443" == "https://10.0.0.1:443";
  }

  // -------------------------------------------------------------- path mode

  /** PathMode is a Go int: the three named modes are 0, 1 and 2, and any
      other value is representable. */
  type PathMode = int

  const KubernetesIngressMode: PathMode := 0
  const PathRegexp: PathMode := 1
  const PathPrefix: PathMode := 2

  const KubernetesIngressModeString: string := "kubernetes-ingress"
  const PathRegexpString: string := "path-regexp"
  const PathPrefixString: string := "path-prefix"

  predicate NamedPathMode(m: PathMode)
  {
    m == KubernetesIngressMode || m == PathRegexp || m == PathPrefix
  }

  function PathModeString(m: PathMode): (s: string)
    ensures m == PathRegexp ==> s == PathRegexpString
    ensures m == PathPrefix ==> s == PathPrefixString
    ensures m != PathRegexp && m != PathPrefix ==> s == KubernetesIngressModeString
  {
    if m == PathRegexp then PathRegexpString
    else if m == PathPrefix then PathPrefixString
    else KubernetesIngressModeString
  }

  /** ParsePathMode. Go returns `0` next to the error; the model returns
      only the error. */
  function ParsePathMode(s: string): (r: Result<PathMode, ConfigError>)
    ensures s == KubernetesIngressModeString ==> r == Success(KubernetesIngressMode)
    ensures s == PathRegexpString ==> r == Success(PathRegexp)
    ensures s == PathPrefixString ==> r == Success(PathPrefix)
    ensures s != KubernetesIngressModeString && s != PathRegexpString && s != PathPrefixString ==>
      r == Failure(InvalidPathMode(s))
  {
    if s == KubernetesIngressModeString then Success(KubernetesIngressMode)
    else if s == PathRegexpString then Success(PathRegexp)
    else if s == PathPrefixString then Success(PathPrefix)
    else Failure(InvalidPathMode(s))
  }

  /** Printing a named mode and parsing it back gives the mode. */
  lemma PathModeRoundTrip(m: PathMode)
    requires NamedPathMode(m)
    ensures ParsePathMode(PathModeString(m)) == Success(m)
  {
  }

  /** The strings the parser accepts are exactly the printed forms, and
      printing what it parsed gives back the string. */
  lemma ParsePathModeAccepts(s: string)
    ensures ParsePathMode(s).Success? <==> exists m :: NamedPathMode(m) && PathModeString(m) == s
    ensures ParsePathMode(s).Success? ==> PathModeString(ParsePathMode(s).value) == s
  {
    if ParsePathMode(s).Success? {
      var m := ParsePathMode(s).value;
      assert NamedPathMode(m) && PathModeString(m) == s;
    }
  }

  // ------------------------------------------------------ option defaulting

  /** The ingress or route-group class filter: empty means "skipper". */
  function ClassOrDefault(cls: string, default: string): (r: string)
    ensures r != "" || default == ""
    ensures cls != "" ==> r == cls
    ensures cls == "" ==> r == default
  {
    if cls != "" then cls else default
  }

  /** The HTTPS redirect status: a non-positive code becomes 308, a
      positive one is kept. */
  function RedirectCode(code: int): (r: int)
    ensures r > 0
    ensures code > 0 ==> r == code
    ensures code <= 0 ==> r == StatusPermanentRedirect
  {
    if code <= 0 then StatusPermanentRedirect else code
  }

  /** strings.TrimLeft(s, ".") */
  function TrimLeadingDots(s: string): (r: string)
    ensures |r| <= |s| && r == s[|s| - |r|..]
    ensures r == [] || r[0] != '.'
    ensures forall i :: 0 <= i < |s| - |r| ==> s[i] == '.'
  {
    if s != [] && s[0] == '.' then TrimLeadingDots(s[1..]) else s
  }

  /** strings.TrimRight(s, ".") */
  function TrimTrailingDots(s: string): (r: string)
    ensures |r| <= |s| && r == s[..|r|]
    ensures r == [] || r[|r| - 1] != '.'
    ensures forall i :: |r| <= i < |s| ==> s[i] == '.'
  {
    if s != [] && s[|s| - 1] == '.' then TrimTrailingDots(s[..|s| - 1]) else s
  }

  /** strings.Trim(s, "."): the longest infix of `s` that neither starts nor
      ends with a dot, everything cut away on either side being dots. */
  function TrimDots(s: string): (r: string)
    ensures r == [] || (r[0] != '.' && r[|r| - 1] != '.')
    ensures exists i :: DotsAround(s, i, r)
  {
    var l := TrimLeadingDots(s);
    var r := TrimTrailingDots(l);
    var i := |s| - |l|;
    assert s[i..i + |r|] == r;
    assert DotsAround(s, i, r);
    r
  }

  /** `r` sits at offset `i` of `s` with only dots before and after it. */
  predicate DotsAround(s: string, i: int, r: string)
  {
    && 0 <= i <= |s| - |r|
    && s[i..i + |r|] == r
    && (forall k :: 0 <= k < i ==> s[k] == '.')
    && (forall k :: i + |r| <= k < |s| ==> s[k] == '.')
  }

  /** Trimming dots a second time changes nothing. */
  lemma TrimDotsIdempotent(s: string)
    ensures TrimDots(TrimDots(s)) == TrimDots(s)
  {
  }

  /** The east-west domain `New` settles on: unchanged when east-west is off,
      the default when it is on but unset, otherwise trimmed of dots. */
  function EastWestDomain(enabled: bool, domain: string): (r: string)
    ensures !enabled ==> r == domain
    ensures enabled && domain == "" ==> r == DefaultEastWestDomain
    ensures enabled && domain != "" ==> r == TrimDots(domain)
    ensures enabled ==> r == [] || (r[0] != '.' && r[|r| - 1] != '.')
  {
    if !enabled then domain
    else if domain == "" then DefaultEastWestDomain
    else TrimDots(domain)
  }

  /** A domain of dots only is trimmed to the empty string, not replaced by
      the default: the default applies to the unset option alone. */
  lemma DotsOnlyDomainBecomesEmpty(s: string)
    requires s != "" && forall i :: 0 <= i < |s| ==> s[i] == '.'
    ensures EastWestDomain(true, s) == ""
  {
    var r := TrimDots(s);
    var i :| DotsAround(s, i, r);
    DotsInfixIsDots(s, i, r);
  }

  /** An infix of a string of dots is itself made of dots. */
  lemma DotsInfixIsDots(s: string, i: int, r: string)
    requires forall k :: 0 <= k < |s| ==> s[k] == '.'
    requires DotsAround(s, i, r)
    ensures forall k :: 0 <= k < |r| ==> r[k] == '.'
  {
    assert forall k :: 0 <= k < |r| ==> r[k] == s[i + k];
  }

  /** Applying the defaults to already-defaulted options changes nothing,
      except for a dotted domain that trims to empty, which the second pass
      replaces by the default. */
  lemma DefaultsAreStable(cls: string, code: int, domain: string)
    ensures ClassOrDefault(ClassOrDefault(cls, DefaultIngressClass), DefaultIngressClass) == ClassOrDefault(cls, DefaultIngressClass)
    ensures RedirectCode(RedirectCode(code)) == RedirectCode(code)
    ensures EastWestDomain(true, domain) != "" ==> EastWestDomain(true, EastWestDomain(true, domain)) == EastWestDomain(true, domain)
    ensures EastWestDomain(true, domain) == "" ==> EastWestDomain(true, EastWestDomain(true, domain)) == DefaultEastWestDomain
  {
  }

  // ---------------------------------------------------- health-check CIDRs

  /** The internal ranges the health-check routes always admit. */
  const InternalIPs: seq<string> := [
    "10.0.0.0/8",
    "192.168.0.0/16",
    "172.16.0.0/12",
    "127.0.0.1/8",
    "fd00::/8",
    "::1/128"
  ]

  /** The allow-list a client uses: the internal ranges followed by the
      whitelisted extras, in order. Kept per client rather than in a shared
      package variable. */
  function HealthcheckCIDRs(whitelisted: seq<string>): (r: seq<string>)
    ensures |r| == |InternalIPs| + |whitelisted|
    ensures r[..|InternalIPs|] == InternalIPs
    ensures r[|InternalIPs|..] == whitelisted
  {
    InternalIPs + whitelisted
  }
}

=== FILE: kube_diff.dfy ===
/** The incremental diff `LoadUpdate` takes between the routes it published
    last and the routes it has just converted. Routes are compared by their
    printed form, which is a parameter: the printer is not part of this
    model, and nothing is assumed about it. */
module KubeDiff {

  import opened Eskip
  import opened KubeRoutes

  /** Identifiers whose route must be (re)sent: new ones, and those whose
      printed form changed. */
  ghost function Upserts(current: map<string, Route>, next: map<string, Route>, show: Route -> string): set<string>
  {
    set id | id in next && (id !in current || show(next[id]) != show(current[id]))
  }

  /** Identifiers that disappeared. */
  ghost function Deletes(current: map<string, Route>, next: map<string, Route>): set<string>
  {
    set id | id in current && id !in next
  }

  predicate Distinct(ss: seq<string>)
  {
    forall i, j :: 0 <= i < j < |ss| ==> ss[i] != ss[j]
  }

  /** Every listed route is the one `next` holds under its identifier. */
  predicate FromNext(rs: seq<Route>, next: map<string, Route>)
  {
    forall i :: 0 <= i < |rs| ==> rs[i].id in next && next[rs[i].id] == rs[i]
  }

  /** `(upserted, deleted)` is a correct diff from `current` to `next`: each
      upserted route is taken from `next`, its identifiers are exactly the
      upserts, once each, and the deleted identifiers are exactly the
      deletes, once each. */
  ghost predicate IsDiff(current: map<string, Route>, next: map<string, Route>, show: Route -> string,
                         upserted: seq<Route>, deleted: seq<string>)
  {
    && FromNext(upserted, next)
    && DistinctIds(upserted)
    && IdSet(upserted) == Upserts(current, next, show)
    && Distinct(deleted)
    && (set id | id in deleted) == Deletes(current, next)
  }

  /** The two loops of `LoadUpdate`. The first walks `current` (in Go's
      unspecified map order) and emits changed routes and deleted
      identifiers; the second walks `next` and emits the new routes. */
  method Diff(current: map<string, Route>, next: map<string, Route>, show: Route -> string)
    returns (upserted: seq<Route>, deleted: seq<string>)
    requires Keyed(next)
    ensures IsDiff(current, next, show, upserted, deleted)
    ensures IdSet(upserted) !! (set id | id in deleted)
    ensures forall i, j :: 0 <= i < j < |upserted| && upserted[j].id in current ==> upserted[i].id in current
  {
    var changed;
    changed, deleted := WalkCurrent(current, next, show);
    upserted := WalkNext(current, next, show, changed);
  }

  /** The first loop: over `current`, the routes whose printed form changed
      and the identifiers that vanished. */
  method WalkCurrent(current: map<string, Route>, next: map<string, Route>, show: Route -> string)
    returns (changed: seq<Route>, deleted: seq<string>)
    requires Keyed(next)
    ensures FromNext(changed, next) && DistinctIds(changed) && Distinct(deleted)
    ensures IdSet(changed) == Upserts(current, next, show) * current.Keys
    ensures forall i :: 0 <= i < |changed| ==> changed[i].id in current
    ensures (set id | id in deleted) == Deletes(current, next)
  {
    changed := [];
    deleted := [];
    var rest := current.Keys;
    while rest != {}
      invariant rest <= current.Keys
      invariant FromNext(changed, next) && DistinctIds(changed) && Distinct(deleted)
      invariant IdSet(changed) == Upserts(current, next, show) * (current.Keys - rest)
      invariant (set id | id in deleted) == Deletes(current, next) - rest
      invariant forall i :: 0 <= i < |changed| ==> changed[i].id in current
      decreases rest
    {
      var id :| id in rest;
      if id in next && show(next[id]) != show(current[id]) {
        IdSetAppend(changed, next[id]);
        changed := changed + [next[id]];
      } else if id !in next {
        assert (set x | x in deleted + [id]) == (set x | x in deleted) + {id};
        deleted := deleted + [id];
      }
      rest := rest - {id};
    }
  }

  /** The second loop: over `next`, appending the routes whose identifier
      `current` lacks to the changed ones. */
  method WalkNext(current: map<string, Route>, next: map<string, Route>, show: Route -> string, changed: seq<Route>)
    returns (upserted: seq<Route>)
    requires Keyed(next)
    requires FromNext(changed, next) && DistinctIds(changed)
    requires IdSet(changed) == Upserts(current, next, show) * current.Keys
    requires forall i :: 0 <= i < |changed| ==> changed[i].id in current
    ensures FromNext(upserted, next) && DistinctIds(upserted)
    ensures IdSet(upserted) == Upserts(current, next, show)
    ensures |changed| <= |upserted| && upserted[..|changed|] == changed
    ensures forall i :: |changed| <= i < |upserted| ==> upserted[i].id !in current
  {
    upserted := changed;
    var rest := next.Keys;
    while rest != {}
      invariant rest <= next.Keys
      invariant |changed| <= |upserted| && upserted[..|changed|] == changed
      invariant FromNext(upserted, next) && DistinctIds(upserted)
      invariant IdSet(upserted) == Upserts(current, next, show) - (rest - current.Keys)
      invariant forall i :: |changed| <= i < |upserted| ==> upserted[i].id !in current
      decreases rest
    {
      var id :| id in rest;
      if id !in current {
        IdSetAppend(upserted, next[id]);
        upserted := upserted + [next[id]];
      }
      rest := rest - {id};
    }
  }

  /** The route table a consumer holds after applying a diff to `current`:
      deleted identifiers dropped, upserted routes stored under their
      identifiers. */
  function Apply(current: map<string, Route>, upserted: seq<Route>, deleted: seq<string>): map<string, Route>
  {
    var kept := map id | id in current && id !in deleted :: current[id];
    kept + MapRoutes(upserted)
  }

  /** Applying a correct diff to `current` yields a table with the same
      identifiers as `next`, every route printing like its counterpart in
      `next`; when the printer tells routes apart, the table is `next`. */
  lemma ApplyDiffReachesNext(current: map<string, Route>, next: map<string, Route>, show: Route -> string,
                             upserted: seq<Route>, deleted: seq<string>)
    requires Keyed(current) && Keyed(next)
    requires IsDiff(current, next, show, upserted, deleted)
    ensures Apply(current, upserted, deleted).Keys == next.Keys
    ensures forall id :: id in next ==> show(Apply(current, upserted, deleted)[id]) == show(next[id])
    ensures (forall r, r' :: show(r) == show(r') ==> r == r') ==> Apply(current, upserted, deleted) == next
  {
    var applied := Apply(current, upserted, deleted);
    forall id | id in next
      ensures id in applied && show(applied[id]) == show(next[id])
    {
      if id in Upserts(current, next, show) {
        var i :| 0 <= i < |upserted| && upserted[i].id == id;
        assert upserted[i] in upserted;
      } else {
        assert id !in Deletes(current, next);
      }
    }
    forall id | id in applied
      ensures id in next
    {
      if id in IdSet(upserted) {
        assert id in Upserts(current, next, show);
      } else {
        assert id in current && id !in deleted;
        assert id !in (set x | x in deleted);
        assert id !in Deletes(current, next);
      }
    }
  }

  /** The diff is empty exactly when both tables have the same identifiers
      and every route prints as before; in particular diffing a table
      against itself yields nothing. */
  lemma EmptyDiffIffUnchanged(current: map<string, Route>, next: map<string, Route>, show: Route -> string)
    ensures Upserts(current, next, show) == {} && Deletes(current, next) == {}
        <==> current.Keys == next.Keys && forall id :: id in next ==> show(next[id]) == show(current[id])
    ensures Upserts(next, next, show) == {} && Deletes(next, next) == {}
  {
    if Upserts(current, next, show) == {} && Deletes(current, next) == {} {
      forall id | id in next ensures id in current && show(next[id]) == show(current[id]) {
        assert id !in Upserts(current, next, show);
      }
      forall id | id in current ensures id in next {
        assert id !in Deletes(current, next);
      }
    }
  }

  lemma {:induction false} DistinctIdsCard(rs: seq<Route>)
    requires DistinctIds(rs)
    ensures |IdSet(rs)| == |rs|
  {
    if rs != [] {
      var init := rs[..|rs| - 1];
      var last := rs[|rs| - 1];
      assert rs == init + [last];
      DistinctIdsCard(init);
      IdSetAppend(init, last);
      assert last.id !in IdSet(init);
    }
  }

  lemma {:induction false} DistinctCard(ss: seq<string>)
    requires Distinct(ss)
    ensures |set x | x in ss| == |ss|
  {
    if ss != [] {
      var init := ss[..|ss| - 1];
      assert ss == init + [ss[|ss| - 1]];
      DistinctCard(init);
      assert (set x | x in ss) == (set x | x in init) + {ss[|ss| - 1]};
    }
  }

  /** A correct diff is no longer than the sets it stands for: one upserted
      route per changed or new identifier, one deleted identifier per
      vanished one. */
  lemma DiffSizes(current: map<string, Route>, next: map<string, Route>, show: Route -> string,
                  upserted: seq<Route>, deleted: seq<string>)
    requires IsDiff(current, next, show, upserted, deleted)
    ensures |upserted| == |Upserts(current, next, show)|
    ensures |deleted| == |Deletes(current, next)|
  {
    DistinctIdsCard(upserted);
    DistinctCard(deleted);
  }

  /** Polling twice with no change in between: the second diff is empty. */
  lemma RepeatedDiffIsEmpty(m: map<string, Route>, show: Route -> string, upserted: seq<Route>, deleted: seq<string>)
    requires IsDiff(m, m, show, upserted, deleted)
    ensures upserted == [] && deleted == []
  {
    EmptyDiffIffUnchanged(m, m, show);
    DiffSizes(m, m, show, upserted, deleted);
  }

  /** One route changes its printed form and nothing else changes: the diff
      is that route alone, with no deletions. */
  lemma OneChangedRouteDiff(current: map<string, Route>, next: map<string, Route>, show: Route -> string,
                            id: string, upserted: seq<Route>, deleted: seq<string>)
    requires id in current && next.Keys == current.Keys && show(next[id]) != show(current[id])
    requires forall other :: other in next && other != id ==> show(next[other]) == show(current[other])
    requires IsDiff(current, next, show, upserted, deleted)
    ensures upserted == [next[id]] && deleted == []
  {
    assert Upserts(current, next, show) == {id};
    assert Deletes(current, next) == {};
    DiffSizes(current, next, show, upserted, deleted);
    assert upserted[0] in upserted;
  }

  /** One route disappears and nothing else changes: the diff is its
      identifier alone, with no upserts. */
  lemma OneRemovedRouteDiff(current: map<string, Route>, show: Route -> string,
                            id: string, upserted: seq<Route>, deleted: seq<string>)
    requires id in current
    requires IsDiff(current, current - {id}, show, upserted, deleted)
    ensures upserted == [] && deleted == [id]
  {
    var next := current - {id};
    assert Upserts(current, next, show) == {};
    assert Deletes(current, next) == {id};
    DiffSizes(current, next, show, upserted, deleted);
    assert deleted[0] in deleted;
  }
}

=== FILE: kube_routes.dfy ===
/** The route-level helpers of the Kubernetes data client: indexing routes
    by identifier, the synthetic health-check and redirect routes, the
    shunted "no endpoints" route and string-list intersection. */
module KubeRoutes {

  import opened Wrappers
  import opened Eskip

  // ------------------------------------------------------------- mapRoutes

  /** Position `i` holds the last route of `rs` with its identifier. */
  predicate IsLastWithId(rs: seq<Route>, i: int)
  {
    0 <= i < |rs| && forall j :: i < j < |rs| ==> rs[j].id != rs[i].id
  }

  /** mapRoutes: the routes indexed by identifier. Every identifier of the
      list is a key and nothing else is; each key holds the route stored
      under it, and when identifiers repeat the later route wins. */
  function MapRoutes(rs: seq<Route>): (m: map<string, Route>)
    ensures m.Keys == IdSet(rs)
    ensures Keyed(m)
    ensures LaterWins(rs, m)
    decreases |rs|
  {
    if rs == [] then map[]
    else
      var init := rs[..|rs| - 1];
      var last := rs[|rs| - 1];
      assert init + [last] == rs;
      var prev := MapRoutes(init);
      MapRoutesStep(init, last, prev, prev[last.id := last]);
      prev[last.id := last]
  }

  /** Every route of `rs` that no later route shadows is the one `m` holds
      under its identifier. */
  ghost predicate LaterWins(rs: seq<Route>, m: map<string, Route>)
  {
    forall i :: IsLastWithId(rs, i) ==> rs[i].id in m && m[rs[i].id] == rs[i]
  }

  /** The inductive step of `MapRoutes`: adding the last route to the table
      of the others. */
  lemma MapRoutesStep(init: seq<Route>, last: Route, prev: map<string, Route>, m: map<string, Route>)
    requires prev.Keys == IdSet(init) && Keyed(prev)
    requires LaterWins(init, prev)
    requires m == prev[last.id := last]
    ensures m.Keys == IdSet(init + [last]) && Keyed(m)
    ensures LaterWins(init + [last], m)
  {
    var rs := init + [last];
    IdSetAppend(init, last);
    forall i | IsLastWithId(rs, i)
      ensures m[rs[i].id] == rs[i]
    {
      if i < |init| {
        assert rs[i] == init[i];
        assert rs[|init|] == last;
        assert init[i].id != last.id;
        assert IsLastWithId(init, i) by {
          forall j | i < j < |init| ensures init[j].id != init[i].id {
            assert rs[j] == init[j];
          }
        }
      }
    }
  }

  /** Routes appended after a list take precedence over any route of that
      list with the same identifier. */
  lemma {:induction false} MapRoutesSuffixWins(front: seq<Route>, back: seq<Route>, k: int)
    requires 0 <= k < |back|
    requires forall j :: k < j < |back| ==> back[j].id != back[k].id
    ensures back[k].id in MapRoutes(front + back)
    ensures MapRoutes(front + back)[back[k].id] == back[k]
  {
    var rs := front + back;
    assert rs[|front| + k] == back[k];
    assert IsLastWithId(rs, |front| + k);
  }

  // ------------------------------------------------------------ shuntRoute

  const StatusName: string := "status"
  const InlineContentName: string := "inlineContent"

  /** The filters of a route whose service has no endpoints. */
  const NoEndpointsFilters: seq<Filter> := [
    Filter(StatusName, [NumberArg(502)]),
    Filter(InlineContentName, [StringArg("no endpoints")])
  ]

  /** shuntRoute: the route answers 502 "no endpoints" itself. Its
      identifier, predicates and load-balancer endpoints are untouched. */
  function ShuntRoute(r: Route): (s: Route)
    ensures s.id == r.id && s.predicates == r.predicates && s.lbEndpoints == r.lbEndpoints
    ensures |s.filters| == 2
    ensures s.filters[0].name == StatusName && s.filters[0].args == [NumberArg(502)]
    ensures s.filters[1].name == InlineContentName && s.filters[1].args == [StringArg("no endpoints")]
    ensures s.backendType == ShuntBackend && s.backend == ""
  {
    r.(filters := NoEndpointsFilters, backendType := ShuntBackend, backend := "")
  }

  /** Shunting a route twice is the same as shunting it once, and two routes
      that differ only in filters and backend shunt to the same route. */
  lemma ShuntRouteIdempotent(r: Route, r': Route)
    ensures ShuntRoute(ShuntRoute(r)) == ShuntRoute(r)
    ensures r.id == r'.id && r.predicates == r'.predicates && r.lbEndpoints == r'.lbEndpoints
      <==> ShuntRoute(r) == ShuntRoute(r')
  {
  }

  // ------------------------------------------------------ healthcheckRoutes

  const HealthzUpID: string := "kube__healthz_up"
  const HealthzDownID: string := "kube__healthz_down"
  const HealthzPath: string := "/kube-system/healthz"

  /** The source predicate that guards the health-check routes: the client
      address taken from the last X-Forwarded-For entry when the reverse
      source predicate is configured, the direct source otherwise. */
  function SourcePredicate(reverseSourcePredicate: bool, cidrs: seq<string>): Predicate
  {
    Predicate(if reverseSourcePredicate then "SourceFromLast" else "Source", StringArgs(cidrs))
  }

  /** healthcheckRoutes: the pair of shunt routes answering on the
      health-check path. */
  function HealthcheckRoutes(reverseSourcePredicate: bool, cidrs: seq<string>): (rs: seq<Route>)
    ensures |rs| == 2 && rs[0].id == HealthzUpID && rs[1].id == HealthzDownID
    ensures rs[1].predicates == rs[0].predicates + [Predicate("Shutdown", [])]
    ensures rs[0].filters == [Filter(StatusName, [NumberArg(200)])]
    ensures rs[1].filters == [Filter(StatusName, [NumberArg(503)])]
    ensures rs[0].backendType == ShuntBackend && rs[1].backendType == ShuntBackend
  {
    var guard := [Predicate("Path", [StringArg(HealthzPath)]), SourcePredicate(reverseSourcePredicate, cidrs)];
    [
      Route(HealthzUpID, guard, [Filter(StatusName, [NumberArg(200)])], ShuntBackend, "", []),
      Route(HealthzDownID, guard + [Predicate("Shutdown", [])], [Filter(StatusName, [NumberArg(503)])], ShuntBackend, "", [])
    ]
  }

  /** Both health-check routes match the health-check path from a source in
      the allow-list; the source predicate is SourceFromLast exactly when
      the reverse source predicate is set, and its arguments read back as
      the allow-list in order. */
  lemma HealthcheckGuard(reverseSourcePredicate: bool, cidrs: seq<string>, k: int)
    requires 0 <= k < 2
    ensures var p := HealthcheckRoutes(reverseSourcePredicate, cidrs)[k].predicates;
      && |p| >= 2
      && (k == 0 ==> |p| == 2)
      && p[0] == Predicate("Path", [StringArg(HealthzPath)])
      && (p[1].name == "SourceFromLast" <==> reverseSourcePredicate)
      && (p[1].name == "Source" <==> !reverseSourcePredicate)
      && ArgStrings(p[1].args) == Some(cidrs)
  {
    ArgStringsOfStringArgs(cidrs);
  }

  // ---------------------------------------------------- globalRedirectRoute

  const HTTPRedirectRouteID: string := "kube__redirect"

  /** globalRedirectRoute: a shunt route that matches plain-HTTP requests by
      their X-Forwarded-Proto header and redirects them to the HTTPS
      equivalent with the given status code. */
  function GlobalRedirectRoute(code: int): (r: Route)
    ensures r.id == HTTPRedirectRouteID && r.backendType == ShuntBackend
    ensures r.filters == [Filter("redirectTo", [NumberArg(code), StringArg("https:")])]
  {
    Route(HTTPRedirectRouteID,
      [Predicate("Header", [StringArg("X-Forwarded-Proto"), StringArg("http")])],
      [Filter("redirectTo", [NumberArg(code), StringArg("https:")])],
      ShuntBackend, "", [])
  }

  // ----------------------------------------------------- compareStringList

  /** Reference definition: the elements of `a` that occur in `b`, in the
      reverse of their order in `a`, repeats included. */
  function CommonReversed(a: seq<string>, b: seq<string>): seq<string>
  {
    if a == [] then [] else CommonReversed(a[1..], b) + (if a[0] in b then [a[0]] else [])
  }

  /** The reference definition keeps every occurrence in `a` of an element of
      `b` and nothing else. */
  lemma {:induction false} CommonReversedCounts(a: seq<string>, b: seq<string>)
    ensures |CommonReversed(a, b)| <= |a|
    ensures forall x :: multiset(CommonReversed(a, b))[x] == if x in b then multiset(a)[x] else 0
  {
    if a != [] {
      CommonReversedCounts(a[1..], b);
      assert a == [a[0]] + a[1..];
      assert multiset(a) == multiset{a[0]} + multiset(a[1..]);
    }
  }

  /** compareStringList, with the source's loops: walk `a` from the back and
      keep an element when a scan of `b` finds it. */
  method CompareStringList(a: seq<string>, b: seq<string>) returns (c: seq<string>)
    ensures c == CommonReversed(a, b)
  {
    c := [];
    var i := |a| - 1;
    while i >= 0
      invariant -1 <= i < |a|
      invariant c == CommonReversed(a[i + 1..], b)
    {
      var j := 0;
      var found := false;
      while j < |b| && !found
        invariant 0 <= j <= |b|
        invariant !found ==> a[i] !in b[..j]
        invariant found ==> a[i] in b
        invariant c == CommonReversed(a[i + 1..], b) + (if found then [a[i]] else [])
      {
        if a[i] == b[j] {
          c := c + [b[j]];
          found := true;
        }
        j := j + 1;
      }
      assert !found ==> b[..j] == b;
      assert a[i..][1..] == a[i + 1..];
      i := i - 1;
    }
    assert a[0..] == a;
  }
}

=== FILE: wrappers.dfy ===
/** Failure-carrying result types shared by the model: Go's `(value, error)`
    returns become `Result`, and a nil-able value becomes `Option`. */
module Wrappers {

  datatype Option<+T> = None | Some(value: T)

  datatype Result<+T, +E> = Success(value: T) | Failure(error: E)
}
